=== FILE: README.md ===
# make-sortable, modelled in Dafny

A model of `makeSortable`, the TypeScript helper that turns a table's
header row into a set of sortable column headers. The helper stores a
controller (`SorterContext`) on the header-row container at most once. The
controller's single mouseup listener implements a small state machine. A
click on an element carrying the `sortable` class reads that header's mode.
The mode is the first of `ascending`, `descending`, `unsorted` among its
classes, and no mode counts as `unsorted`. The click advances the mode one
step round that cycle. It then strips the mode class from every sortable
header, gives the clicked header the new mode, and calls the caller's
callback with the header's field name and the new mode.

The DOM is reduced to data. A container is a sequence of `Header` records
(sortable flag, optional `fieldname` attribute, text content, set of mode
classes). A click is the pure function `SorterContext.Click`, which returns
the new headers and the callback invocation, if any. Attachment is
`MakeSortable.Attach` on a `Container` that records the stored controller
and the registered listeners.

Files:
- `wrappers.dfy`: `Option`.
- `modes.dfy`: `SortMode`, the `modeClasses` order, the cycle.
- `headers.dfy`: the header record, `getSortState`, field-name resolution, and
  removing one header's mode.
- `sorter_context.dfy`: `clearPreviousStates`, the click handler, mutual
  exclusion and the cycle.
- `make_sortable.dfy`: idempotent attachment and delivery of a mouseup to
  the registered listeners.

Where the code and its doc comment disagree, the model follows the code.
The header text is reported verbatim: the doc comment of `makeSortable`
says it is lower-cased, but nothing in the code lower-cases it.

Behaviour of the code that the model makes explicit:
- `clearPreviousStates` removes only the mode `getSortState` reports. A
  header carrying two mode classes keeps the lower-priority one
  (`SorterContext.ClearKeepsLowerMarker`).
- Mutual exclusion is conditional. Suppose every sortable header carried at
  most one mode class before a handled click. Then afterwards only the
  clicked header carries one, and it carries exactly the new mode
  (`SorterContext.ClickExclusive`). Every click preserves that condition
  (`SorterContext.ClickPreservesAtMostOneMarker`), but markup can break it.
- The mode cycle needs no such condition. Three clicks on a header return it
  to exactly the mode it started from, whatever classes it or the other
  headers carried (`SorterContext.ThreeClicksCycle`).

## Model

| member | source | states |
|---|---|---|
| Modes.IndexOf | src/make-sortable.ts:22-42 | every mode occurs exactly once in `modeClasses`, at the returned position, so `indexOf` never yields -1 for a mode |
| Modes.NextMode | src/make-sortable.ts:42-43 | the index+1 mod 3 step sends ascending to descending, descending to unsorted and unsorted to ascending, and never stays put |
| Modes.NextModePeriod | src/make-sortable.ts:42-43 | three steps return to the starting mode; one or two do not |
| Modes.NextModeBijective | src/make-sortable.ts:42-43 | the step is a permutation of the three modes: injective and onto |
| Modes.CycleCoversAll | src/make-sortable.ts:22-43 | a mode and its two successors are all three modes |
| SorterContext.ThreeStepsLeaveStart | src/make-sortable.ts:42-48 | replacing the read mode by its successor three times over leaves exactly the starting mode, from any set of modes |
| Headers.FirstPresent | src/make-sortable.ts:70-73 | the scan yields None exactly when no listed mode is present, and otherwise a present mode with none listed before it |
| Headers.GetSortState | src/make-sortable.ts:69-74 | null exactly when the header carries no mode class; otherwise a mode it carries whose priority is no lower than any other mode it carries |
| Headers.CurrentMode | src/make-sortable.ts:35-40 | a header with no mode class counts as unsorted; otherwise its mode is the one `getSortState` reads, the highest-priority one it carries |
| Headers.FieldName | src/make-sortable.ts:51 | the `fieldname` attribute when present and non-empty, otherwise the text content |
| Headers.FieldNameIgnoresText | src/make-sortable.ts:51 | with a non-empty attribute, changing the text does not change the reported name |
| Headers.FieldNameFallsBackToText | src/make-sortable.ts:51 | without one the text is reported unchanged (no lower-casing), and an empty attribute acts as a missing one |
| Headers.RemoveSortState | src/make-sortable.ts:63-64 | only the mode `getSortState` reports is removed: one class fewer when any was present, no other class or attribute changes |
| Headers.RemoveSortStateEmpties | src/make-sortable.ts:63-64 | a header with at most one mode class is left with none |
| SorterContext.ClearPreviousStates | src/make-sortable.ts:59-66 | non-sortable elements are untouched; each sortable one loses exactly the mode `getSortState` reports |
| SorterContext.ClearPreviousStatesEmpties | src/make-sortable.ts:59-66 | under the one-marker invariant, clearing leaves no sortable element with a mode class |
| SorterContext.NextModeReadsBack | src/make-sortable.ts:42-48 | after removing the read mode and adding its successor, `getSortState` reads the successor, whatever else was left |
| SorterContext.Normalize | src/make-sortable.ts:35-40 | an unmarked target gets exactly `unsorted`; a marked one is left alone; no other element changes |
| SorterContext.ClearAfterNormalize | src/make-sortable.ts:35-45 | after normalising and clearing, the target has lost exactly the mode it counts as having, and every other element is cleared as `clearPreviousStates` clears it |
| SorterContext.AddMode | src/make-sortable.ts:48 | the target gains the new mode class and every other element is unchanged |
| SorterContext.Click | src/make-sortable.ts:28-55 | a click on a non-sortable element changes nothing and calls nothing. A handled click calls the callback once with (field name, next mode). Every other element is left as `clearPreviousStates` leaves it: a sortable one loses exactly its read mode, a non-sortable one is untouched. The target keeps its attributes, and its classes become its old ones minus the read mode plus the next mode, which is then the mode it reads back |
| SorterContext.ClickOnlyChangesModes | src/make-sortable.ts:28-55 | a click changes only mode classes, and nothing on non-sortable elements |
| SorterContext.ClickTarget | src/make-sortable.ts:35-48 | one handled click replaces the target's read mode by its successor, which is then the mode the target counts as having |
| SorterContext.ClickExclusive | src/make-sortable.ts:35-66 | under the one-marker invariant, after a handled click the target carries exactly the new mode and every other sortable header none; both invariants hold afterwards |
| SorterContext.ClickPreservesAtMostOneMarker | src/make-sortable.ts:28-66 | every click, handled or ignored, preserves the one-marker invariant |
| SorterContext.ThreeClicksCycle | src/make-sortable.ts:35-53 | for any container, three clicks on one sortable header report next, next-next and the starting mode, and leave the header carrying exactly its starting mode |
| SorterContext.FreshHeaderCycle | src/make-sortable.ts:35-43 | in any container, a never-clicked sortable header reports ascending, descending, unsorted, ascending on four clicks |
| SorterContext.ClearKeepsLowerMarker | src/make-sortable.ts:59-66 | a header carrying ascending and descending keeps descending after a click elsewhere |
| SorterContext.ClickStepExclusive | src/make-sortable.ts:35-66 | on a two-header row whose headers carry at most one mode class each, a click gives the clicked header exactly the next mode, clears the other, and reports the clicked field name |
| SorterContext.NameAgeScenario | src/make-sortable.ts:35-53 | worked example: "Name" reports ascending then descending under its unlowered text; "Age" then reports "age" ascending and "Name" is stripped of its mode |
| MakeSortable.Attach | src/make-sortable.ts:13-20 | with a controller already stored the container is returned unchanged; otherwise the new controller is stored and exactly one listener is added |
| MakeSortable.AttachIdempotent | src/make-sortable.ts:16-19 | a second attach request changes nothing, whatever callback it passes |
| MakeSortable.AttachPreservesAttached | src/make-sortable.ts:16-19 | attachment keeps the listeners equal to the stored controller's, leaving exactly one |
| MakeSortable.AttachAllKeepsFirst | src/make-sortable.ts:13-20 | any series of requests on a fresh container leaves the first request's controller and exactly one listener |
| MakeSortable.AttachAllOnAttached | src/make-sortable.ts:16-17 | requests against a container that already has a controller change nothing |
| MakeSortable.RunListeners | src/make-sortable.ts:28-31 | each listener reports once for a sortable target and not at all otherwise, each report going to the listener at the same position (`InRegistrationOrder`); only mode classes change |
| MakeSortable.InRegistrationOrderAt | src/make-sortable.ts:28 | in-order reporting means that the k-th invocation goes to the k-th listener's callback |
| MakeSortable.Mouseup | src/make-sortable.ts:28-31 | a mouseup runs every registered listener. On a non-sortable target nothing changes and nothing is reported. On a sortable one there is one report per listener, the k-th going to the k-th listener's callback |
| MakeSortable.Deliver | src/make-sortable.ts:28-55 | after a mouseup only the elements' mode classes may have changed; the stored controller and listeners stay; a non-sortable target leaves the container as it was |
| MakeSortable.MouseupOnce | src/make-sortable.ts:16-55 | on an attached container a sortable click runs the handler once and reports once to the stored callback; any other click does nothing |
| MakeSortable.MouseupExclusive | src/make-sortable.ts:16-66 | on an attached container under the one-marker invariant, a sortable click reports once to the stored callback with (field name, next mode); the target then carries exactly that mode and every other sortable element none |

## Left out

- DOM event plumbing is not modelled: `addEventListener`, `stopPropagation`,
  `preventDefault` and `event.target`. "Handled" is `Click(...).call.Some?`;
  the target is an index into the container's elements.
- A click that lands on the container itself is not modelled. The target is
  always one of the container's elements. Such a click is possible: if the
  container carries `sortable`, the handler runs on it. `getElementsByClassName`
  returns only descendants, so the container's own mode class is never
  cleared. Its classes only accumulate, so after its first click its
  highest-priority class never changes. From the second click on it reports
  the same mode every time:
  - `descending` if it started with `ascending` (from the first click), or
    with no mode class or only `unsorted`;
  - `unsorted` if it started with `descending` but not `ascending`.
- The live-collection and descendant-only behaviour of `getElementsByClassName`
  is not modelled. Classes other than `sortable` and the three modes are not
  modelled either, because the code never reads or writes them.
- The callback's behaviour and return value are not modelled. It is
  caller-supplied and its result is discarded. It is identified by a number,
  and the step returns the invocation instead of making it. Re-entrant
  callbacks are therefore out of scope.
- `textContent` being `null` is not modelled: for elements it is always a
  string.

=== FILE: headers.dfy ===
/**
 * A column header as the component sees it: whether it carries the
 * `sortable` class, its optional `fieldname` attribute, its text content and
 * the mode classes it carries. Classes other than `sortable` and the three
 * mode classes play no part in the behaviour and are not represented.
 */
module Headers {
  import opened Wrappers
  import opened Modes

  datatype Header = Header(
    sortable: bool,
    fieldname: Option<string>,
    text: string,
    modes: set<SortMode>)

  /**
   * The first entry of `order` that is present in `modes`, scanning from the
   * front; None when no entry of `order` is present.
   */
  function FirstPresent(order: seq<SortMode>, modes: set<SortMode>): (r: Option<SortMode>)
    ensures r.None? <==> forall k :: 0 <= k < |order| ==> order[k] !in modes
    ensures r.Some? ==> r.value in modes
    ensures r.Some? ==> exists k :: 0 <= k < |order| && order[k] == r.value
                                  && forall j :: 0 <= j < k ==> order[j] !in modes
    decreases |order|
  {
    if order == [] then None
    else if order[0] in modes then Some(order[0])
    else
      var rest := FirstPresent(order[1..], modes);
      assert forall k :: 1 <= k < |order| ==> order[k] == order[1..][k - 1];
      rest
  }

  /**
   * The header's current mode: the highest-priority mode class it carries,
   * priority being the order of `ModeClasses`; None when it carries none.
   */
  function GetSortState(modes: set<SortMode>): (r: Option<SortMode>)
    ensures r.None? <==> modes == {}
    ensures r.Some? ==> r.value in modes
    ensures r.Some? ==> forall m :: m in modes ==> IndexOf(r.value) <= IndexOf(m)
  {
    var r := FirstPresent(ModeClasses, modes);
    if r.None? then
      NoModeClassListed(modes);
      r
    else
      r
  }

  /** A set that holds none of the listed mode classes is empty, since every mode is listed. */
  lemma NoModeClassListed(modes: set<SortMode>)
    requires forall k :: 0 <= k < |ModeClasses| ==> ModeClasses[k] !in modes
    ensures modes == {}
  {
    forall m ensures m !in modes {
      assert ModeClasses[IndexOf(m)] == m;
    }
  }

  /**
   * The mode a click starts from: the mode `GetSortState` reads, or unsorted
   * for a header with no mode class.
   */
  function CurrentMode(h: Header): (m: SortMode)
    ensures h.modes == {} ==> m == Unsorted
    ensures h.modes != {} ==> Some(m) == GetSortState(h.modes)
  {
    GetSortState(h.modes).GetOr(Unsorted)
  }

  /** True when the `fieldname` attribute is present and non-empty. */
  predicate HasFieldName(h: Header) {
    h.fieldname.Some? && h.fieldname.value != ""
  }

  /**
   * The logical name reported to the callback: the `fieldname` attribute
   * when it is present and non-empty, otherwise the text content verbatim.
   */
  function FieldName(h: Header): (name: string)
    ensures HasFieldName(h) ==> Some(name) == h.fieldname
    ensures !HasFieldName(h) ==> name == h.text
  {
    match h.fieldname
    case Some(f) => if f != "" then f else h.text
    case None => h.text
  }

  /** A non-empty `fieldname` attribute decides the name whatever the text says. */
  lemma FieldNameIgnoresText(h: Header, t: string)
    requires HasFieldName(h)
    ensures FieldName(h.(text := t)) == FieldName(h) == h.fieldname.value
  {
  }

  /**
   * Without a usable attribute the text is reported unchanged: no
   * lower-casing or trimming takes place, and an empty attribute behaves
   * exactly like a missing one.
   */
  lemma FieldNameFallsBackToText(h: Header)
    requires !HasFieldName(h)
    ensures FieldName(h) == h.text
    ensures FieldName(h.(fieldname := Some(""))) == FieldName(h.(fieldname := None))
  {
  }

  /** Everything about a header except its mode classes. */
  predicate SameExceptModes(a: Header, b: Header) {
    a.sortable == b.sortable && a.fieldname == b.fieldname && a.text == b.text
  }

  /**
   * One iteration of the clearing loop, for a header it visits: the mode
   * that `GetSortState` reports is removed and nothing else changes.
   */
  function RemoveSortState(h: Header): (r: Header)
    ensures SameExceptModes(r, h)
    ensures r.modes <= h.modes
    ensures h.modes == {} ==> r == h
    ensures h.modes != {} ==> |r.modes| == |h.modes| - 1
    ensures forall m :: m in h.modes && m !in r.modes ==> Some(m) == GetSortState(h.modes)
  {
    match GetSortState(h.modes)
    case Some(m) => h.(modes := h.modes - {m})
    case None => h
  }

  /** A header with at most one mode class is left with none. */
  lemma RemoveSortStateEmpties(h: Header)
    requires |h.modes| <= 1
    ensures RemoveSortState(h).modes == {}
  {
    if h.modes != {} {
      var m := GetSortState(h.modes).value;
      assert |h.modes - {m}| == 0;
    }
  }
}

=== FILE: make_sortable.dfy ===
/**
 * Attaching a controller to a header-row container, and delivering a mouseup
 * on one of the container's elements to every listener registered on it.
 */
module MakeSortable {
  import opened Wrappers
  import opened Modes
  import opened Headers
  import opened SorterContext

  /** A controller created for a container; it holds the callback it reports to. */
  datatype Controller = Controller(callback: CallbackId)

  /**
   * A container: its elements in document order, the controller stored on
   * it (the `sorterContext` property), and the mouseup listeners registered
   * on it, each belonging to the controller that registered it.
   */
  datatype Container = Container(
    headers: seq<Header>,
    sorterContext: Option<Controller>,
    listeners: seq<Controller>)

  /** A container nothing has been attached to yet. */
  function Fresh(hs: seq<Header>): Container {
    Container(hs, None, [])
  }

  /**
   * The listeners registered on the container are exactly those of the
   * controller stored on it: none before attachment, one after.
   */
  predicate Attached(c: Container) {
    c.listeners == (if c.sorterContext.Some? then [c.sorterContext.value] else [])
  }

  /**
   * Attaches a controller reporting to `cb` unless one is already stored on
   * the container, in which case the container is returned unchanged and `cb`
   * is ignored. A new controller registers exactly one listener.
   */
  function Attach(c: Container, cb: CallbackId): (r: Container)
    ensures r.headers == c.headers
    ensures c.sorterContext.Some? ==> r == c
    ensures c.sorterContext.None? ==> r.sorterContext == Some(Controller(cb))
    ensures c.sorterContext.None? ==> r.listeners == c.listeners + [Controller(cb)]
  {
    if c.sorterContext.Some? then c
    else c.(sorterContext := Some(Controller(cb)), listeners := c.listeners + [Controller(cb)])
  }

  /** Attaching twice is attaching once: the second request changes nothing. */
  lemma AttachIdempotent(c: Container, a: CallbackId, b: CallbackId)
    ensures Attach(Attach(c, a), b) == Attach(c, a)
    ensures Attach(c, a).sorterContext.Some?
  {
  }

  /** Attachment keeps the listeners in step with the stored controller. */
  lemma AttachPreservesAttached(c: Container, cb: CallbackId)
    requires Attached(c)
    ensures Attached(Attach(c, cb))
    ensures |Attach(c, cb).listeners| == 1
  {
  }

  /** A series of attach requests against one container, in order. */
  function AttachAll(c: Container, cbs: seq<CallbackId>): (r: Container)
    decreases |cbs|
  {
    if cbs == [] then c else AttachAll(Attach(c, cbs[0]), cbs[1..])
  }

  /**
   * However many times a fresh container is made sortable, it holds the
   * controller of the first request and exactly one listener.
   */
  lemma {:induction false} AttachAllKeepsFirst(hs: seq<Header>, cbs: seq<CallbackId>)
    requires cbs != []
    ensures AttachAll(Fresh(hs), cbs) == Container(hs, Some(Controller(cbs[0])), [Controller(cbs[0])])
  {
    var c := Attach(Fresh(hs), cbs[0]);
    assert c == Container(hs, Some(Controller(cbs[0])), [Controller(cbs[0])]);
    AttachAllOnAttached(c, cbs[1..]);
  }

  /** Further attach requests against a container that has a controller change nothing. */
  lemma {:induction false} AttachAllOnAttached(c: Container, cbs: seq<CallbackId>)
    requires c.sorterContext.Some?
    ensures AttachAll(c, cbs) == c
    decreases |cbs|
  {
    if cbs != [] {
      AttachAllOnAttached(Attach(c, cbs[0]), cbs[1..]);
    }
  }

  /** The elements after a mouseup, and the callback invocations it caused, in order. */
  datatype Delivery = Delivery(headers: seq<Header>, calls: seq<Call>)

  /**
   * Each invocation went to the callback of the listener at the same
   * position: the first to the first listener, and so on.
   */
  predicate InRegistrationOrder(calls: seq<Call>, ls: seq<Controller>)
    decreases |calls|
  {
    calls == [] || (ls != [] && calls[0].callback == ls[0].callback
                    && InRegistrationOrder(calls[1..], ls[1..]))
  }

  /** Position by position: the k-th invocation goes to the k-th listener's callback. */
  lemma {:induction false} InRegistrationOrderAt(calls: seq<Call>, ls: seq<Controller>)
    requires InRegistrationOrder(calls, ls)
    ensures |calls| <= |ls|
    ensures forall k :: 0 <= k < |calls| ==> calls[k].callback == ls[k].callback
    decreases |calls|
  {
    if calls != [] {
      InRegistrationOrderAt(calls[1..], ls[1..]);
      forall k | 1 <= k < |calls| ensures calls[k].callback == ls[k].callback {
        assert calls[1..][k - 1] == calls[k] && ls[1..][k - 1] == ls[k];
      }
    }
  }

  /**
   * Runs the click handler of each listener in registration order, each one
   * seeing the classes the previous one left.
   */
  function RunListeners(ls: seq<Controller>, hs: seq<Header>, i: nat): (r: Delivery)
    requires i < |hs|
    ensures |r.headers| == |hs|
    ensures forall j :: 0 <= j < |hs| ==> SameExceptModes(r.headers[j], hs[j])
    ensures !hs[i].sortable ==> r == Delivery(hs, [])
    ensures hs[i].sortable ==> |r.calls| == |ls|
    ensures InRegistrationOrder(r.calls, ls)
    decreases |ls|
  {
    if ls == [] then Delivery(hs, [])
    else
      var s := Click(ls[0].callback, hs, i);
      ClickOnlyChangesModes(ls[0].callback, hs, i);
      var rest := RunListeners(ls[1..], s.headers, i);
      if s.call.Some? then
        assert ([s.call.value] + rest.calls)[1..] == rest.calls;
        Delivery(rest.headers, [s.call.value] + rest.calls)
      else
        Delivery(rest.headers, rest.calls)
  }

  /**
   * A mouseup on element `i` of the container: every registered listener
   * handles it, and one whose target is not sortable does nothing.
   */
  function Mouseup(c: Container, i: nat): (r: Delivery)
    requires i < |c.headers|
    ensures |r.headers| == |c.headers|
    ensures !c.headers[i].sortable ==> r == Delivery(c.headers, [])
    ensures c.headers[i].sortable ==> |r.calls| == |c.listeners|
    ensures InRegistrationOrder(r.calls, c.listeners)
  {
    RunListeners(c.listeners, c.headers, i)
  }

  /**
   * On a container whose listeners match its controller, a click on a
   * sortable element runs the handler once and reports to the stored
   * callback exactly once; any other click changes nothing and reports nothing.
   */
  lemma MouseupOnce(c: Container, i: nat)
    requires i < |c.headers|
    requires Attached(c)
    ensures c.sorterContext.Some? && c.headers[i].sortable ==>
      var s := Click(c.sorterContext.value.callback, c.headers, i);
      Mouseup(c, i) == Delivery(s.headers, [s.call.value])
    ensures !(c.sorterContext.Some? && c.headers[i].sortable) ==>
      Mouseup(c, i) == Delivery(c.headers, [])
  {
    if c.sorterContext.Some? {
      var s := Click(c.sorterContext.value.callback, c.headers, i);
      assert c.listeners[1..] == [];
      assert RunListeners([], s.headers, i) == Delivery(s.headers, []);
    }
  }

  /**
   * The container after a mouseup: only its elements' classes may change,
   * and a click on a non-sortable element leaves it exactly as it was.
   */
  function Deliver(c: Container, i: nat): (r: Container)
    requires i < |c.headers|
    ensures |r.headers| == |c.headers|
    ensures forall j :: 0 <= j < |c.headers| ==> SameExceptModes(r.headers[j], c.headers[j])
    ensures r.sorterContext == c.sorterContext && r.listeners == c.listeners
    ensures !c.headers[i].sortable ==> r == c
  {
    c.(headers := Mouseup(c, i).headers)
  }

  /**
   * A handled mouseup on an attached container whose sortable elements carry
   * at most one mode class each: the stored callback is called once with the
   * target's field name and next mode; afterwards the target carries exactly
   * that mode and every other sortable element none.
   */
  lemma MouseupExclusive(c: Container, i: nat)
    requires i < |c.headers| && c.headers[i].sortable
    requires Attached(c) && c.sorterContext.Some?
    requires AtMostOneMarker(c.headers)
    ensures Mouseup(c, i).calls ==
      [Call(c.sorterContext.value.callback, FieldName(c.headers[i]), NextMode(CurrentMode(c.headers[i])))]
    ensures Deliver(c, i).headers[i].modes == {NextMode(CurrentMode(c.headers[i]))}
    ensures forall j :: 0 <= j < |c.headers| && j != i && c.headers[j].sortable ==>
      Deliver(c, i).headers[j].modes == {}
    ensures Attached(Deliver(c, i)) && AtMostOneMarker(Deliver(c, i).headers)
  {
    MouseupOnce(c, i);
    ClickExclusive(c.sorterContext.value.callback, c.headers, i);
  }
}

=== FILE: modes.dfy ===
/**
 * The three sort modes of a column header and the fixed order in which the
 * component lists them. That one order serves twice: it is the cycle a click
 * advances along, and the priority in which a header's mode markers are read.
 */
module Modes {

  datatype SortMode = Ascending | Descending | Unsorted

  /** The list of mode class names, in declaration order. */
  const ModeClasses: seq<SortMode> := [Ascending, Descending, Unsorted]

  /** Position of a mode in `ModeClasses`; every mode occurs there exactly once. */
  function IndexOf(m: SortMode): (k: nat)
    ensures k < |ModeClasses| && ModeClasses[k] == m
    ensures forall j :: 0 <= j < |ModeClasses| && ModeClasses[j] == m ==> j == k
  {
    match m
    case Ascending => 0
    case Descending => 1
    case Unsorted => 2
  }

  /**
   * The mode a click moves to: the next entry of `ModeClasses`, wrapping
   * round from the last entry to the first.
   */
  function NextMode(m: SortMode): (r: SortMode)
    ensures m == Ascending ==> r == Descending
    ensures m == Descending ==> r == Unsorted
    ensures m == Unsorted ==> r == Ascending
    ensures r != m
  {
    ModeClasses[(IndexOf(m) + 1) % |ModeClasses|]
  }

  /** Three steps round the cycle return to the starting mode, and no fewer do. */
  lemma NextModePeriod(m: SortMode)
    ensures NextMode(NextMode(NextMode(m))) == m
    ensures NextMode(NextMode(m)) != m
    ensures NextMode(m) != m
  {
  }

  /** Every mode is reached from exactly one predecessor. */
  lemma NextModeBijective(a: SortMode, b: SortMode)
    ensures NextMode(a) == NextMode(b) <==> a == b
    ensures exists p :: NextMode(p) == a
  {
    assert NextMode(NextMode(NextMode(a))) == a;
  }

  /** Any mode together with its two successors names all three modes. */
  lemma CycleCoversAll(m: SortMode, x: SortMode)
    ensures x == m || x == NextMode(m) || x == NextMode(NextMode(m))
  {
  }
}

=== FILE: sorter_context.dfy ===
/**
 * The controller's click handler as a pure step on the container's elements.
 * The container is the sequence of its elements in document order; a click
 * names the element it landed on by index. The callback is opaque: the step
 * returns the call it would make instead of making it.
 */
module SorterContext {
  import opened Wrappers
  import opened Modes
  import opened Headers

  /** Identity of a caller-supplied callback; what it does is not modelled. */
  type CallbackId = nat

  /** One invocation of a callback with a field name and the new mode. */
  datatype Call = Call(callback: CallbackId, fieldName: string, mode: SortMode)

  /**
   * The outcome of one click: the elements with their classes afterwards,
   * and the callback invocation, if the click was handled. The invocation is
   * made once the classes are updated, so it observes `headers`.
   */
  datatype Step = Step(headers: seq<Header>, call: Option<Call>)

  /** Every sortable element carries at most one mode class. */
  predicate AtMostOneMarker(hs: seq<Header>) {
    forall j :: 0 <= j < |hs| && hs[j].sortable ==> |hs[j].modes| <= 1
  }

  /** A header is active when it carries a mode other than unsorted. */
  predicate Active(h: Header) {
    h.sortable && (Ascending in h.modes || Descending in h.modes)
  }

  /** At most one sortable element is in an ascending or descending mode. */
  predicate AtMostOneActive(hs: seq<Header>) {
    forall j, k :: 0 <= j < |hs| && 0 <= k < |hs| && Active(hs[j]) && Active(hs[k]) ==> j == k
  }

  /**
   * Strips the mode class reported by `GetSortState` from every sortable
   * element; elements without the `sortable` class are not visited.
   */
  function ClearPreviousStates(hs: seq<Header>): (r: seq<Header>)
    ensures |r| == |hs|
    ensures forall j :: 0 <= j < |hs| && !hs[j].sortable ==> r[j] == hs[j]
    ensures forall j :: 0 <= j < |hs| && hs[j].sortable ==> r[j] == RemoveSortState(hs[j])
    decreases |hs|
  {
    if hs == [] then []
    else
      var first := if hs[0].sortable then RemoveSortState(hs[0]) else hs[0];
      [first] + ClearPreviousStates(hs[1..])
  }

  /** When no sortable element has two mode classes, clearing leaves none on any of them. */
  lemma ClearPreviousStatesEmpties(hs: seq<Header>)
    requires AtMostOneMarker(hs)
    ensures forall j :: 0 <= j < |hs| && hs[j].sortable ==> ClearPreviousStates(hs)[j].modes == {}
  {
    forall j | 0 <= j < |hs| && hs[j].sortable
      ensures ClearPreviousStates(hs)[j].modes == {}
    {
      RemoveSortStateEmpties(hs[j]);
    }
  }

  /**
   * Adding the successor of the removed mode to the modes left behind makes
   * that successor the one `GetSortState` reads: whatever was left has lower
   * priority than the removed mode, hence no higher than its successor.
   */
  lemma NextModeReadsBack(modes: set<SortMode>, s: SortMode)
    requires Some(s) == GetSortState(modes)
    ensures GetSortState((modes - {s}) + {NextMode(s)}) == Some(NextMode(s))
  {
    var after := (modes - {s}) + {NextMode(s)};
    forall m | m in after ensures IndexOf(NextMode(s)) <= IndexOf(m) {
      if m != NextMode(s) {
        assert m in modes && m != s;
      }
    }
  }

  /**
   * The normalisation step of the handler: a target carrying no mode class
   * is given `unsorted`, so that its mode reads as the one a click starts from.
   */
  function Normalize(hs: seq<Header>, i: nat): (r: seq<Header>)
    requires i < |hs|
    ensures |r| == |hs|
    ensures forall j :: 0 <= j < |hs| && j != i ==> r[j] == hs[j]
    ensures SameExceptModes(r[i], hs[i])
    ensures hs[i].modes == {} ==> r[i].modes == {Unsorted}
    ensures hs[i].modes != {} ==> r[i] == hs[i]
    ensures GetSortState(r[i].modes) == Some(CurrentMode(hs[i]))
  {
    if GetSortState(hs[i].modes).None? then hs[i := hs[i].(modes := hs[i].modes + {Unsorted})]
    else hs
  }

  /** Adds one mode class to the element at index `i` and leaves the rest alone. */
  function AddMode(hs: seq<Header>, i: nat, m: SortMode): (r: seq<Header>)
    requires i < |hs|
    ensures |r| == |hs|
    ensures forall j :: 0 <= j < |hs| && j != i ==> r[j] == hs[j]
    ensures r[i] == hs[i].(modes := hs[i].modes + {m})
  {
    hs[i := hs[i].(modes := hs[i].modes + {m})]
  }

  /**
   * Normalising the target and then clearing: the target has lost the mode
   * it counts as having, and every other element is cleared as usual.
   */
  lemma ClearAfterNormalize(hs: seq<Header>, i: nat)
    requires i < |hs| && hs[i].sortable
    ensures |ClearPreviousStates(Normalize(hs, i))| == |hs|
    ensures forall j :: 0 <= j < |hs| && j != i ==>
      ClearPreviousStates(Normalize(hs, i))[j] == (if hs[j].sortable then RemoveSortState(hs[j]) else hs[j])
    ensures SameExceptModes(ClearPreviousStates(Normalize(hs, i))[i], hs[i])
    ensures ClearPreviousStates(Normalize(hs, i))[i].modes == hs[i].modes - {CurrentMode(hs[i])}
  {
    var normalized := Normalize(hs, i);
    var cleared := ClearPreviousStates(normalized);
    assert cleared[i] == RemoveSortState(normalized[i]);
    assert Some(CurrentMode(hs[i])) == GetSortState(normalized[i].modes);
  }

  /**
   * The mouseup handler. A click on an element without the `sortable` class
   * changes nothing and calls nothing. Otherwise the target's current mode is
   * read (an unmarked target is first given `unsorted`), advanced one step,
   * every sortable element's mode is cleared, the target gets the new mode,
   * and the callback receives the target's field name and the new mode.
   */
  function Click(cb: CallbackId, hs: seq<Header>, i: nat): (r: Step)
    requires i < |hs|
    ensures |r.headers| == |hs|
    ensures r.call.Some? <==> hs[i].sortable
    ensures !hs[i].sortable ==> r.headers == hs
    ensures hs[i].sortable ==>
      r.call == Some(Call(cb, FieldName(hs[i]), NextMode(CurrentMode(hs[i]))))
    ensures hs[i].sortable ==> forall j :: 0 <= j < |hs| && j != i ==>
      r.headers[j] == (if hs[j].sortable then RemoveSortState(hs[j]) else hs[j])
    ensures hs[i].sortable ==> SameExceptModes(r.headers[i], hs[i])
    ensures hs[i].sortable ==>
      r.headers[i].modes == (hs[i].modes - {CurrentMode(hs[i])}) + {r.call.value.mode}
    ensures hs[i].sortable ==> GetSortState(r.headers[i].modes) == Some(r.call.value.mode)
  {
    var target := hs[i];
    if !target.sortable then Step(hs, None)
    else
      var normalized := Normalize(hs, i);
      var state := GetSortState(normalized[i].modes).value;
      var newState := NextMode(state);
      var cleared := ClearPreviousStates(normalized);
      var headers := AddMode(cleared, i, newState);
      NextModeReadsBack(normalized[i].modes, state);
      ClearAfterNormalize(hs, i);
      Step(headers, Some(Call(cb, FieldName(headers[i]), newState)))
  }

  /**
   * A click changes nothing but mode classes, and nothing at all on
   * elements without the `sortable` class.
   */
  lemma ClickOnlyChangesModes(cb: CallbackId, hs: seq<Header>, i: nat)
    requires i < |hs|
    ensures forall j :: 0 <= j < |hs| ==> SameExceptModes(Click(cb, hs, i).headers[j], hs[j])
    ensures forall j :: 0 <= j < |hs| && !hs[j].sortable ==> Click(cb, hs, i).headers[j] == hs[j]
  {
  }

  /**
   * Mutual exclusion. When no sortable element carried two mode classes,
   * a handled click leaves the target with exactly the new mode and every
   * other sortable element with none, so both invariants hold afterwards.
   */
  lemma ClickExclusive(cb: CallbackId, hs: seq<Header>, i: nat)
    requires i < |hs| && hs[i].sortable
    requires AtMostOneMarker(hs)
    ensures Click(cb, hs, i).headers[i].modes == {NextMode(CurrentMode(hs[i]))}
    ensures forall j :: 0 <= j < |hs| && j != i && hs[j].sortable ==>
      Click(cb, hs, i).headers[j].modes == {}
    ensures AtMostOneMarker(Click(cb, hs, i).headers)
    ensures AtMostOneActive(Click(cb, hs, i).headers)
  {
    var normalized := Normalize(hs, i);
    assert AtMostOneMarker(normalized);
    ClearPreviousStatesEmpties(normalized);
    var after := Click(cb, hs, i).headers;
    assert forall j :: 0 <= j < |hs| && hs[j].sortable ==> |after[j].modes| <= 1;
  }

  /**
   * The handler keeps the at-most-one-marker invariant: it holds after any
   * click, handled or ignored, whenever it held before.
   */
  lemma ClickPreservesAtMostOneMarker(cb: CallbackId, hs: seq<Header>, i: nat)
    requires i < |hs|
    requires AtMostOneMarker(hs)
    ensures AtMostOneMarker(Click(cb, hs, i).headers)
  {
    if hs[i].sortable {
      ClickExclusive(cb, hs, i);
    }
  }

  /**
   * What one handled click does to its target: the mode read is replaced by
   * its successor, which is then the mode the target counts as having.
   */
  lemma ClickTarget(cb: CallbackId, hs: seq<Header>, i: nat)
    requires i < |hs| && hs[i].sortable
    ensures i < |Click(cb, hs, i).headers| && Click(cb, hs, i).headers[i].sortable
    ensures Click(cb, hs, i).headers[i].modes == (hs[i].modes - {CurrentMode(hs[i])}) + {NextMode(CurrentMode(hs[i]))}
    ensures CurrentMode(Click(cb, hs, i).headers[i]) == NextMode(CurrentMode(hs[i]))
  {
    assert SameExceptModes(Click(cb, hs, i).headers[i], hs[i]);
  }

  /**
   * Replacing the read mode by its successor three times over, starting from
   * any set of modes, leaves exactly the starting mode.
   */
  lemma ThreeStepsLeaveStart(h: set<SortMode>, m0: SortMode)
    ensures var m1 := NextMode(m0);
            var m2 := NextMode(m1);
            var h1 := (h - {m0}) + {NextMode(m0)};
            var h2 := (h1 - {m1}) + {NextMode(m1)};
            var h3 := (h2 - {m2}) + {NextMode(m2)};
            h3 == {m0}
  {
    NextModePeriod(m0);
    var m1, m2 := NextMode(m0), NextMode(NextMode(m0));
    assert h - {m0, m1, m2} == {} by {
      forall x | x in h ensures x in {m0, m1, m2} {
        CycleCoversAll(m0, x);
      }
    }
  }

  /**
   * Three handled clicks on the same header report the three modes in cycle
   * order and leave the header carrying exactly the mode it was counted as
   * having before, whatever classes it or any other element started with.
   */
  lemma ThreeClicksCycle(cb: CallbackId, hs: seq<Header>, i: nat)
    requires i < |hs| && hs[i].sortable
    ensures var s1 := Click(cb, hs, i);
            var s2 := Click(cb, s1.headers, i);
            var s3 := Click(cb, s2.headers, i);
            && s1.call.value.mode == NextMode(CurrentMode(hs[i]))
            && s2.call.value.mode == NextMode(NextMode(CurrentMode(hs[i])))
            && s3.call.value.mode == CurrentMode(hs[i])
            && s3.headers[i].modes == {CurrentMode(hs[i])}
  {
    var m0 := CurrentMode(hs[i]);
    var m1, m2 := NextMode(m0), NextMode(NextMode(m0));
    NextModePeriod(m0);
    var s1 := Click(cb, hs, i);
    ClickTarget(cb, hs, i);
    var s2 := Click(cb, s1.headers, i);
    ClickTarget(cb, s1.headers, i);
    ClickTarget(cb, s2.headers, i);
    ThreeStepsLeaveStart(hs[i].modes, m0);
  }

  /**
   * A header that has never been clicked counts as unsorted, so four clicks
   * on it report ascending, descending, unsorted and ascending again.
   */
  lemma FreshHeaderCycle(cb: CallbackId, hs: seq<Header>, i: nat)
    requires i < |hs| && hs[i].sortable && hs[i].modes == {}
    ensures var s1 := Click(cb, hs, i);
            var s2 := Click(cb, s1.headers, i);
            var s3 := Click(cb, s2.headers, i);
            var s4 := Click(cb, s3.headers, i);
            && s1.call.value.mode == Ascending
            && s2.call.value.mode == Descending
            && s3.call.value.mode == Unsorted
            && s4.call.value.mode == Ascending
  {
    ThreeClicksCycle(cb, hs, i);
  }

  /**
   * Clearing removes only the highest-priority mode class of each element:
   * an element carrying two of them keeps the other after a click elsewhere,
   * which is why mutual exclusion needs the at-most-one-marker invariant.
   */
  lemma ClearKeepsLowerMarker(cb: CallbackId)
    ensures var hs := [Header(true, None, "Name", {}), Header(true, None, "Age", {Ascending, Descending})];
            Click(cb, hs, 0).headers[1].modes == {Descending}
  {
    var hs := [Header(true, None, "Name", {}), Header(true, None, "Age", {Ascending, Descending})];
    assert GetSortState(hs[1].modes) == Some(Ascending);
    assert hs[1].modes - {Ascending} == {Descending};
  }

  /**
   * A click on either header of a two-header row whose headers are sortable
   * and carry at most one mode class each, in closed form.
   */
  lemma ClickStepExclusive(cb: CallbackId, hs: seq<Header>, i: nat)
    requires |hs| == 2 && i < 2 && hs[0].sortable && hs[1].sortable
    requires |hs[0].modes| <= 1 && |hs[1].modes| <= 1
    ensures var m := NextMode(CurrentMode(hs[i]));
            Click(cb, hs, i) == Step(
              if i == 0 then [hs[0].(modes := {m}), hs[1].(modes := {})]
              else [hs[0].(modes := {}), hs[1].(modes := {m})],
              Some(Call(cb, FieldName(hs[i]), m)))
  {
    ClickExclusive(cb, hs, i);
    ClickOnlyChangesModes(cb, hs, i);
  }

  /**
   * A header row with "Name" (no attribute) and "Age" (attribute "age").
   * Clicking "Name" twice reports ascending then descending under its text,
   * unlowered; clicking "Age" then reports "age" ascending and strips "Name"
   * of its mode.
   */
  lemma NameAgeScenario(cb: CallbackId)
    ensures var s1 := Click(cb, [Header(true, None, "Name", {}), Header(true, Some("age"), "Age", {})], 0);
            var s2 := Click(cb, s1.headers, 0);
            var s3 := Click(cb, s2.headers, 1);
            && s1.call == Some(Call(cb, "Name", Ascending))
            && s2.call == Some(Call(cb, "Name", Descending))
            && s3.call == Some(Call(cb, "age", Ascending))
            && s3.headers[0].modes == {}
            && s3.headers[1].modes == {Ascending}
  {
    var name, age := Header(true, None, "Name", {}), Header(true, Some("age"), "Age", {});
    ClickStepExclusive(cb, [name, age], 0);
    var hs1 := [name.(modes := {Ascending}), age];
    ClickStepExclusive(cb, hs1, 0);
    var hs2 := [name.(modes := {Descending}), age];
    ClickStepExclusive(cb, hs2, 1);
  }
}

=== FILE: wrappers.dfy ===
/** The optional value used wherever the source may produce `null`. */
module Wrappers {

  datatype Option<+T> = None | Some(value: T) {

    /** Returns the value in Some, or the given default for None. */
    function GetOr(default: T): (r: T)
      ensures Some? ==> r == value
      ensures None? ==> r == default
    {
      match this
      case Some(v) => v
      case None => default
    }
  }
}
